=== FILE: README.md ===
# Weather widget lookup, modelled in Dafny

The widget asks the Open-Meteo geocoding service for the coordinates of a
typed city, asks the forecast service for the current weather there, and shows
the temperature, a condition icon and label, the place name and a day or night
background. The repository holds two versions of this lookup, both called
`buscarClima`:

- `assets/js/api-core.js` exports a function that takes the city text,
  returns the `current_weather` object and throws a distinct error at each
  exit;
- `assets/js/api.js` is the page's click handler. It trims the text field,
  goes through `fetchJson`, writes every failure into the `#erro` line (all
  transport failures share one message) and renders the result card.

Both are modelled as pure functions of the city text and of abstract
descriptions of the two HTTP replies. A reply is a network failure, a
response that is not ok, or an ok response whose body has or lacks `results`
or `current_weather`. Each function also yields the sequence of requests it
issued.

Modules, one per concern:

- `Js` (js.dfy): JSON fields that may be missing or `null`, and how a call settles
  (returns or throws).
- `JsString` (jsstring.dfy): `String.prototype.trim`. It is defined once and
  proved to be the unique "strip surrounding whitespace" of its input.
- `OpenMeteo` (openmeteo.dfy): the requests, the replies and the body shapes.
- `Conditions` (conditions.dfy): the static weather-code table and its
  `wi-na` / `Desconhecido` fallback.
- `ApiCore` (apicore.dfy): the exported `buscarClima`.
- `CoreMachine` (coremachine.dfy): the same procedure as a state machine,
  Validating → ResolvingLocation → FetchingWeather → Done. It is proved to
  agree with `ApiCore.BuscarClima` on every input.
- `Widget` (widget.dfy): the click handler. The page is modelled as the error
  line, the result-screen flag and the result card.
- `Variants` (variants.dfy): how the two versions relate. The handler on text
  `s` behaves like the exported function on `s.trim()`, except that it
  URL-encodes the city and reports failures differently.

Facts about the code that the model keeps:

- the exported function does not trim, so whitespace-only text reaches the
  geocoder;
- the exported function puts the city into the geocoding URL unencoded,
  while the handler applies `encodeURIComponent`;
- the fallback label is `{wi-na, Desconhecido}`;
- the handler shows a result for a forecast body without `current_weather`,
  although its doc comment at assets/js/api.js:123 lists that case as an
  error;
- neither version has a timeout or cancellation.

## Model

| member | source | states |
|---|---|---|
| JsString.TrimStart | assets/js/api.js:135 | the result is a suffix of the input, everything dropped is whitespace, and it does not start with whitespace |
| JsString.TrimEnd | assets/js/api.js:135 | the result is a prefix of the input, everything dropped is whitespace, and it does not end with whitespace |
| JsString.Trim | assets/js/api.js:135 | `trim()` yields a contiguous piece of the text surrounded only by whitespace and neither starting nor ending with it; it is empty exactly when the text is all whitespace |
| JsString.TrimIsUnique | assets/js/api.js:135 | only one string is a trim of a given text, so `Trim` is the trim |
| JsString.TrimIdempotent | assets/js/api.js:135 | trimming an already trimmed text changes nothing |
| Conditions.Describe | assets/js/api.js:164-165 | the lookup is total: a listed code (0,1,2,3,45,48,51,61,71,95) gets its table entry, and every other or missing code gets `{wi-na, Desconhecido}` |
| Conditions.DescribeMatchesCases | assets/js/api.js:24-35 | the map lookup agrees with the table written out code by code, and a missing code gets the fallback |
| ApiCore.BuscarClima | assets/js/api-core.js:1-29 | a falsy city (`undefined`, `null` or "") throws the validation error with no request; blank text is not rejected; the geocoding request carries the text unencoded; the requests are geocode then forecast, 0, 1 or 2 of them by exit point; the forecast uses the coordinates of `results[0]`; a not-ok geocode, missing, `null` or empty `results`, a not-ok forecast, and a missing or `null` `current_weather` each throw their own error, and a fetch rejection propagates; on success `current_weather` is returned unchanged |
| ApiCore.Message | assets/js/api-core.js:3-26 | the message each error thrown by the function itself carries, letter for letter: the texts at lines 3, 10, 14, 23 and 26 |
| ApiCore.MessagesDistinct | assets/js/api-core.js:2-26 | the five thrown messages are pairwise different, so each names one failure |
| ApiCore.ForecastIgnoredBeforeItIsRequested | assets/js/api-core.js:10-21 | when the call stops at validation or geocoding, the forecast endpoint cannot influence the outcome or the requests |
| ApiCore.LaterResultsIgnored | assets/js/api-core.js:17-21 | geocoding bodies with the same first place give the same call; later results are ignored |
| CoreMachine.Step | assets/js/api-core.js:2-28 | every transition moves strictly forward through the phases and issues at most one request, appending it to those already issued |
| CoreMachine.Drive | assets/js/api-core.js:1-29 | the machine always reaches Done, issuing at most one request per remaining phase and never withdrawing one |
| CoreMachine.MachineAgrees | assets/js/api-core.js:1-29 | run from Validating, the machine ends with the same outcome and the same ordered requests as `ApiCore.BuscarClima`, for every input |
| Widget.FetchJson | assets/js/api.js:51-55 | `fetchJson` throws exactly when the response is not ok (with the given message) or `fetch` rejects, and otherwise yields the parsed body unchanged |
| Widget.Background | assets/js/api.js:183-185 | the day colour is chosen exactly when 6 <= hour < 18, the night colour exactly otherwise |
| Widget.Render | assets/js/api.js:163-185 | the temperature shows `--` exactly when `current_weather` or its temperature is missing or `null`; a missing `current_weather` gives the unknown condition; otherwise the icon class is `wi ` plus the table's icon and the description the table's text for the code; the location is `name, country` of the place, with `undefined` or `null` written out as JavaScript does; the background is the day or night colour for the hour |
| Widget.BuscarClima | assets/js/api.js:132-191 | blank text or a missing field sets the validation message with no request; otherwise it geocodes the trimmed, URL-encoded text; missing or empty `results` sets "Cidade não encontrada." without a forecast request; any thrown failure sets the one generic message; every failure changes only the error line; success clears it and shows the result screen |
| Widget.Lookup | assets/js/api.js:141-191 | the `try` block issues the encoded geocoding request, then the forecast for `results[0]` exactly when geocoding found a place; not-found, generic failure and success are each characterised by the two replies; a failure changes only the error line; success renders the card from `results[0]` and the forecast body |
| Widget.SuccessRendersFirstPlace | assets/js/api.js:155-187 | on success the card is rendered from `results[0]` and the forecast body, and the error line is "" |
| Widget.MissingCurrentWeatherIsNotAnError | assets/js/api.js:163-168 | an ok forecast body whose `current_weather` is missing or `null` still shows the result screen with `--°C` and "Desconhecido", contrary to the doc comment at line 123 |
| Variants.HandlerIsCoreOnTrimmedText | assets/js/api.js:132-191 | the handler on text `s` issues the requests the exported function issues on `s.trim()`, in the same order, except that its geocoding request is URL-encoded where the exported function's is raw; validation and not-found match one to one; the exported function's three transport errors are exactly the handler's generic message; its success and its missing-`current_weather` error are exactly the handler's success |
| Variants.RequestsCorrespond | assets/js/api.js:141-161 | the request half of the above: equal counts and order, raw versus encoded geocoding name, identical forecast request |
| Variants.OutcomesCorrespond | assets/js/api.js:141-191 | the outcome half of the above, including the card rendered on success |
| Variants.LookupMatchesCore | assets/js/api-core.js:6-28 | past validation, the handler's `try` block and the exported function agree step by step on the same non-empty text |
| Variants.BlankTextSeparatesVariants | assets/js/api.js:135-139 | on any non-empty whitespace-only text the exported function issues a geocoding request with that text while the handler issues none and shows the validation message |

## Left out

- Network and parsing: `fetch` and `response.json()` are replaced by the reply
  inputs. A body that fails to parse as JSON, and a `results` or
  `current_weather` that is not an array or object, are not modelled.
- A body that parses to `null`, or a `results[0]` that is `null`, is not
  modelled. The exported function then rejects with a TypeError, an outcome
  its error type lacks, and the handler's catch shows the generic message.
- ApiCore.BuscarClima takes the city as a string that may be `undefined` or
  `null`; other falsy or non-string arguments (`0`, `false`, a number) are
  not modelled.
- Widget.BuscarClima: texts are sequences of Unicode scalar values, so a
  city text holding an unpaired UTF-16 surrogate is not modelled. On such a
  text `encodeURIComponent` throws a URIError into the handler's catch: the
  generic message is shown and no request is issued. The exported function
  never encodes the city, so it is unaffected.
- Overlapping clicks are not modelled. The handler is async and nothing
  stops a second click while a lookup is in flight, so two lookups can
  interleave their writes to the error line and the card; Widget.BuscarClima
  treats one click as a single step.
- URLs: URL construction, the output of `encodeURIComponent` and the fixed
  query parameters (`count=1`, `language=pt`, `format=json`,
  `current_weather=true`) are not modelled. A geocoding request records the
  city text and whether it was encoded, not the resulting URL, so the model
  does not show how a raw `&`, `#`, `%` or `+` splits or alters the exported
  function's query string. A forecast request records the two coordinate
  values it carries.
- Numbers: temperatures and coordinates are `real` values that are only
  passed through. Number-to-text formatting is not modelled, so the card
  holds the reading rather than the rendered text.
- Dates: the date line (`Intl.DateTimeFormat`, `new Date()`) is not modelled.
  The hour is an integer input to the handler.
- DOM: element lookup, a missing result element (which would throw into the
  handler's catch), `console.error`, event-listener registration and
  `mostrarBusca` are not modelled. Showing the result screen is the
  `showsResult` flag.
- Daily min/max, precipitation and timeouts are not modelled, because
  neither version requests or implements them. Wind speed is carried as
  part of `current_weather` (the exported function returns it unchanged),
  but neither version reads or shows it.
- assets/tests/feature.test.js is not modelled. It imports from a path and
  an export that api.js does not have, and it expects fields that the code
  never requests.

=== FILE: apicore.dfy ===
/** `buscarClima(cidade)` of assets/js/api-core.js: validate the argument,
    geocode it, fetch the forecast for the first place found, and return its
    `current_weather` object, throwing a distinct error at each exit. */
module ApiCore {
  import opened Js
  import opened OpenMeteo

  /** Why a call rejects. `FetchRejected` is `fetch`'s own error propagating
      unchanged (no message of this function); the others are thrown here. */
  datatype CoreError =
    | EmptyCity
    | LocationLookupFailed
    | CityNotFound
    | WeatherLookupFailed
    | InvalidWeatherData
    | FetchRejected

  /** The message of each error this function throws itself. */
  function Message(e: CoreError): (m: string)
    requires !e.FetchRejected?
  {
    match e
    case EmptyCity => "Por favor, digite o nome de uma cidade."
    case LocationLookupFailed => "Erro ao buscar localização"
    case CityNotFound => "Cidade não encontrada."
    case WeatherLookupFailed => "Erro ao buscar dados do clima"
    case InvalidWeatherData => "Dados climáticos inválidos"
  }

  /** One call: how it settled, and the requests it issued, in order. */
  datatype Run = Run(outcome: Completion<CurrentWeather, CoreError>, trace: seq<Request>)

  /** `cidade` is truthy: a string other than "" (`undefined`, `null` and ""
      are all falsy). */
  predicate Given(cidade: Field<string>)
  {
    cidade.Present? && cidade.value != ""
  }

  /** The call reached the forecast request: the city was given and the
      geocoding reply was ok and named a place. */
  predicate ReachesForecast(cidade: Field<string>, geo: Reply<GeoPayload>)
  {
    Given(cidade) && geo.Ok? && Found(geo.body)
  }

  /** `buscarClima(cidade)` when the geocoding fetch settles as `geo` and the
      forecast fetch, if issued, settles as `forecast`. The argument is tested
      for falsiness only: it is neither trimmed nor URL-encoded. */
  function BuscarClima(cidade: Field<string>, geo: Reply<GeoPayload>, forecast: Reply<ForecastPayload>): (r: Run)
    // Requests: none for a falsy city, then the geocoding request with the
    // raw text, then the forecast request for results[0] only.
    ensures r.trace == [] <==> !Given(cidade)
    ensures |r.trace| <= 2
    ensures |r.trace| >= 1 ==> r.trace[0] == Geocode(Raw(cidade.value))
    ensures |r.trace| == 2 <==> ReachesForecast(cidade, geo)
    ensures |r.trace| == 2 ==> r.trace[1] == ForecastFor(FirstPlace(geo.body))
    // Outcomes, one per exit point.
    ensures r.outcome == Threw(EmptyCity) <==> !Given(cidade)
    ensures r.outcome == Threw(LocationLookupFailed) <==> Given(cidade) && geo.NotOk?
    ensures r.outcome == Threw(CityNotFound) <==> Given(cidade) && geo.Ok? && !Found(geo.body)
    ensures r.outcome == Threw(WeatherLookupFailed) <==> ReachesForecast(cidade, geo) && forecast.NotOk?
    ensures r.outcome == Threw(InvalidWeatherData)
      <==> ReachesForecast(cidade, geo) && forecast.Ok? && !forecast.body.currentWeather.Present?
    ensures r.outcome == Threw(FetchRejected)
      <==> (Given(cidade) && geo.NetworkFailure?) || (ReachesForecast(cidade, geo) && forecast.NetworkFailure?)
    ensures r.outcome.Returned?
      <==> ReachesForecast(cidade, geo) && forecast.Ok? && forecast.body.currentWeather.Present?
    // On success the current_weather object is handed back unchanged.
    ensures r.outcome.Returned? ==> r.outcome.value == forecast.body.currentWeather.value
  {
    if !Given(cidade) then Run(Threw(EmptyCity), [])
    else
      var geocode := [Geocode(Raw(cidade.value))];
      match geo
      case NetworkFailure => Run(Threw(FetchRejected), geocode)
      case NotOk => Run(Threw(LocationLookupFailed), geocode)
      case Ok(geoData) =>
        if !Found(geoData) then Run(Threw(CityNotFound), geocode)
        else
          var both := geocode + [ForecastFor(FirstPlace(geoData))];
          match forecast
          case NetworkFailure => Run(Threw(FetchRejected), both)
          case NotOk => Run(Threw(WeatherLookupFailed), both)
          case Ok(climaData) =>
            match climaData.currentWeather
            case Present(cw) => Run(Returned(cw), both)
            case _ => Run(Threw(InvalidWeatherData), both)
  }

  /** Each message names its own failure: no two thrown errors share one. */
  lemma MessagesDistinct(e1: CoreError, e2: CoreError)
    requires !e1.FetchRejected? && !e2.FetchRejected?
    ensures Message(e1) == Message(e2) <==> e1 == e2
  {
  }

  /** Short-circuiting: when the call stops before the forecast request, the
      forecast endpoint's behaviour cannot affect it. */
  lemma ForecastIgnoredBeforeItIsRequested(cidade: Field<string>, geo: Reply<GeoPayload>,
                                           f1: Reply<ForecastPayload>, f2: Reply<ForecastPayload>)
    requires !ReachesForecast(cidade, geo)
    ensures BuscarClima(cidade, geo, f1) == BuscarClima(cidade, geo, f2)
  {
  }

  /** Only `results[0]` matters: geocoding bodies that agree on their first
      place lead to the same call, whatever follows it. */
  lemma LaterResultsIgnored(cidade: Field<string>, g1: GeoPayload, g2: GeoPayload, forecast: Reply<ForecastPayload>)
    requires Found(g1) && Found(g2) && FirstPlace(g1) == FirstPlace(g2)
    ensures BuscarClima(cidade, Ok(g1), forecast) == BuscarClima(cidade, Ok(g2), forecast)
  {
  }
}

=== FILE: conditions.dfy ===
/** The static table from Open-Meteo weather codes to an icon class of the
    Weather Icons font and a Portuguese description, with its fallback. */
module Conditions {
  import opened Js

  datatype Condition = Condition(icon: string, text: string)

  /** The codes the table lists. */
  const KnownCodes: set<int> := {0, 1, 2, 3, 45, 48, 51, 61, 71, 95}

  const Table: map<int, Condition> := map[
    0 := Condition("wi-day-sunny", "Céu limpo"),
    1 := Condition("wi-day-sunny-overcast", "Parcialmente nublado"),
    2 := Condition("wi-cloud", "Nublado"),
    3 := Condition("wi-cloudy", "Encoberto"),
    45 := Condition("wi-fog", "Neblina"),
    48 := Condition("wi-fog", "Neblina densa"),
    51 := Condition("wi-sprinkle", "Garoa"),
    61 := Condition("wi-rain", "Chuva"),
    71 := Condition("wi-snow", "Neve"),
    95 := Condition("wi-thunderstorm", "Tempestade")
  ]

  /** The label shown for a code the table does not list, or for a missing code. */
  const Unknown := Condition("wi-na", "Desconhecido")

  /** `condicoes[weathercode] || { icone: "wi-na", texto: "Desconhecido" }`:
      total, answering from the table exactly for the listed codes. */
  function Describe(code: Field<int>): (c: Condition)
    ensures c == Unknown <==> !(code.Present? && code.value in KnownCodes)
    ensures code.Present? && code.value in KnownCodes ==> c == Table[code.value]
  {
    if code.Present? && code.value in Table then Table[code.value] else Unknown
  }

  /** The table written out code by code, as an independent reference. */
  function DescribeByCase(code: int): Condition
  {
    match code
    case 0 => Condition("wi-day-sunny", "Céu limpo")
    case 1 => Condition("wi-day-sunny-overcast", "Parcialmente nublado")
    case 2 => Condition("wi-cloud", "Nublado")
    case 3 => Condition("wi-cloudy", "Encoberto")
    case 45 => Condition("wi-fog", "Neblina")
    case 48 => Condition("wi-fog", "Neblina densa")
    case 51 => Condition("wi-sprinkle", "Garoa")
    case 61 => Condition("wi-rain", "Chuva")
    case 71 => Condition("wi-snow", "Neve")
    case 95 => Condition("wi-thunderstorm", "Tempestade")
    case _ => Unknown
  }

  /** The map lookup and the case-by-case reference agree on every code, and a
      missing or `null` code gets the fallback. */
  lemma DescribeMatchesCases(code: Field<int>)
    ensures code.Present? ==> Describe(code) == DescribeByCase(code.value)
    ensures !code.Present? ==> Describe(code) == Unknown
  {
  }
}

=== FILE: coremachine.dfy ===
/** The same procedure seen as a small state machine,
    Validating -> ResolvingLocation -> FetchingWeather -> Done,
    where each transition issues at most one request and any state may exit
    early to Done. It is a second, step-by-step definition against which
    `ApiCore.BuscarClima` is checked. */
module CoreMachine {
  import opened Js
  import opened OpenMeteo
  import opened ApiCore

  datatype Phase =
    | Validating
    | ResolvingLocation
    | FetchingWeather(place: Place)
    | Done(outcome: Completion<CurrentWeather, CoreError>)

  /** A state: the phase reached and the requests issued so far. */
  datatype State = State(phase: Phase, issued: seq<Request>)

  const Start := State(Validating, [])

  /** Steps still needed before Done. */
  function Rank(p: Phase): nat
  {
    match p
    case Validating => 3
    case ResolvingLocation => 2
    case FetchingWeather(_) => 1
    case Done(_) => 0
  }

  /** One transition. Entering a lookup phase issues that lookup's request. */
  function Step(s: State, cidade: Field<string>, geo: Reply<GeoPayload>, forecast: Reply<ForecastPayload>): (t: State)
    requires !s.phase.Done?
    ensures Rank(t.phase) < Rank(s.phase)
    ensures s.issued <= t.issued && |t.issued| <= |s.issued| + 1
  {
    match s.phase
    case Validating =>
      if !Given(cidade) then State(Done(Threw(EmptyCity)), s.issued)
      else State(ResolvingLocation, s.issued + [Geocode(Raw(cidade.value))])
    case ResolvingLocation =>
      (match geo
       case NetworkFailure => State(Done(Threw(FetchRejected)), s.issued)
       case NotOk => State(Done(Threw(LocationLookupFailed)), s.issued)
       case Ok(g) =>
         if Found(g) then State(FetchingWeather(FirstPlace(g)), s.issued + [ForecastFor(FirstPlace(g))])
         else State(Done(Threw(CityNotFound)), s.issued))
    case FetchingWeather(_) =>
      (match forecast
       case NetworkFailure => State(Done(Threw(FetchRejected)), s.issued)
       case NotOk => State(Done(Threw(WeatherLookupFailed)), s.issued)
       case Ok(f) =>
         if f.currentWeather.Present? then State(Done(Returned(f.currentWeather.value)), s.issued)
         else State(Done(Threw(InvalidWeatherData)), s.issued))
  }

  /** Take transitions until Done; every transition lowers the rank, so this halts. */
  function Drive(s: State, cidade: Field<string>, geo: Reply<GeoPayload>, forecast: Reply<ForecastPayload>): (t: State)
    ensures t.phase.Done?
    ensures s.issued <= t.issued && |t.issued| <= |s.issued| + Rank(s.phase)
    decreases Rank(s.phase)
  {
    if s.phase.Done? then s
    else Drive(Step(s, cidade, geo, forecast), cidade, geo, forecast)
  }

  /** The direct definition and the state machine agree on every input: the
      machine started in Validating ends in Done with the same outcome and the
      same requests, in the same order. */
  lemma {:induction false} MachineAgrees(cidade: Field<string>, geo: Reply<GeoPayload>, forecast: Reply<ForecastPayload>)
    ensures Drive(Start, cidade, geo, forecast)
         == State(Done(BuscarClima(cidade, geo, forecast).outcome), BuscarClima(cidade, geo, forecast).trace)
  {
    var s1 := Step(Start, cidade, geo, forecast);
    if !s1.phase.Done? {
      var s2 := Step(s1, cidade, geo, forecast);
      if !s2.phase.Done? {
        var s3 := Step(s2, cidade, geo, forecast);
        assert Drive(s2, cidade, geo, forecast) == Drive(s3, cidade, geo, forecast);
      }
      assert Drive(s1, cidade, geo, forecast) == Drive(s2, cidade, geo, forecast);
    }
    assert Drive(Start, cidade, geo, forecast) == Drive(s1, cidade, geo, forecast);
  }
}

=== FILE: js.dfy ===
/** The few JavaScript value conventions the weather widget relies on. */
module Js {

  /** A property read from a parsed JSON object: a missing key (`undefined`),
      JSON `null`, or a value. `undefined` and `null` are both falsy and both
      replaced by `??` and `||`; they differ only once interpolated into text. */
  datatype Field<+T> = Absent | Null | Present(value: T)

  /** How a call to an async function settles: it returns a value or it throws. */
  datatype Completion<+T, +E> = Returned(value: T) | Threw(error: E)

  /** The text a template literal `${x}` produces for a string property that
      may be missing or `null`. */
  function Interpolate(f: Field<string>): string
  {
    match f
    case Present(s) => s
    case Absent => "undefined"
    case Null => "null"
  }
}

=== FILE: jsstring.dfy ===
/** `String.prototype.trim`, which the widget applies to the typed city name. */
module JsString {

  /** The WhiteSpace and LineTerminator code points that `trim` strips
      (ECMAScript 2023, sections 12.2 and 12.3): TAB, VT, FF, SP, NBSP, ZWNBSP,
      the other Space_Separator characters, LF, CR, LS and PS. */
  predicate IsWhitespace(c: char)
  {
    || c == '\t' || c == '\n' || c == '\U{000B}' || c == '\U{000C}' || c == '\r'
    || c == ' ' || c == '\U{00A0}' || c == '\U{1680}'
    || ('\U{2000}' <= c <= '\U{200A}')
    || c == '\U{2028}' || c == '\U{2029}' || c == '\U{202F}' || c == '\U{205F}'
    || c == '\U{3000}' || c == '\U{FEFF}'
  }

  predicate AllWhitespace(s: string)
  {
    forall i :: 0 <= i < |s| ==> IsWhitespace(s[i])
  }

  /** `r` is what remains of `s` once every leading and trailing whitespace
      character is removed: a contiguous piece of `s`, surrounded only by
      whitespace, that neither starts nor ends with whitespace. */
  ghost predicate IsTrimOf(s: string, r: string)
  {
    && (r == [] || (!IsWhitespace(r[0]) && !IsWhitespace(r[|r| - 1])))
    && exists lead :: IsTrimAt(s, r, lead)
  }

  ghost predicate IsTrimAt(s: string, r: string, lead: int)
  {
    && 0 <= lead && lead + |r| <= |s|
    && s[lead..lead + |r|] == r
    && AllWhitespace(s[..lead])
    && AllWhitespace(s[lead + |r|..])
  }

  function TrimStart(s: string): (r: string)
    ensures |r| <= |s| && r == s[|s| - |r|..]
    ensures AllWhitespace(s[..|s| - |r|])
    ensures r == [] || !IsWhitespace(r[0])
  {
    if |s| > 0 && IsWhitespace(s[0]) then
      var r := TrimStart(s[1..]);
      assert s[..|s| - |r|] == [s[0]] + s[1..][..|s| - 1 - |r|];
      r
    else
      s
  }

  function TrimEnd(s: string): (r: string)
    ensures |r| <= |s| && r == s[..|r|]
    ensures AllWhitespace(s[|r|..])
    ensures r == [] || !IsWhitespace(r[|r| - 1])
  {
    if |s| > 0 && IsWhitespace(s[|s| - 1]) then
      var r := TrimEnd(s[..|s| - 1]);
      assert s[|r|..] == s[..|s| - 1][|r|..] + [s[|s| - 1]];
      r
    else
      s
  }

  /** `s.trim()`. */
  function Trim(s: string): (r: string)
    ensures IsTrimOf(s, r)
    ensures r == [] <==> AllWhitespace(s)
  {
    var t := TrimStart(s);
    var r := TrimEnd(t);
    TrimPieces(s, t, r);
    r
  }

  /** Putting the two halves together: what `TrimStart` and then `TrimEnd`
      promise is exactly a trim of the original text. */
  lemma TrimPieces(s: string, t: string, r: string)
    requires |t| <= |s| && t == s[|s| - |t|..] && AllWhitespace(s[..|s| - |t|])
    requires t == [] || !IsWhitespace(t[0])
    requires |r| <= |t| && r == t[..|r|] && AllWhitespace(t[|r|..])
    requires r == [] || !IsWhitespace(r[|r| - 1])
    ensures IsTrimOf(s, r)
    ensures r == [] <==> AllWhitespace(s)
  {
    var lead := |s| - |t|;
    TrimPiecesAt(s, t, r);
    if r == [] {
      assert s[lead + |r|..] == s[lead..];
      forall i | 0 <= i < |s| ensures IsWhitespace(s[i]) {
        WhitespaceAround(s, lead, i);
      }
    } else {
      assert s[lead..lead + |r|][0] == s[lead];
    }
  }

  lemma TrimPiecesAt(s: string, t: string, r: string)
    requires |t| <= |s| && t == s[|s| - |t|..] && AllWhitespace(s[..|s| - |t|])
    requires |r| <= |t| && r == t[..|r|] && AllWhitespace(t[|r|..])
    ensures IsTrimAt(s, r, |s| - |t|)
  {
    var lead := |s| - |t|;
    assert s[lead..lead + |r|] == t[..|r|];
    assert s[lead + |r|..] == t[|r|..];
  }

  /** Where a nonempty trimmed piece starts and ends: every character before it
      and after it is whitespace, and its own first and last are not. */
  lemma PieceBounds(s: string, r: string, lead: int)
    requires IsTrimOf(s, r) && IsTrimAt(s, r, lead) && r != []
    ensures forall i :: 0 <= i < lead ==> IsWhitespace(s[i])
    ensures !IsWhitespace(s[lead])
    ensures forall i :: lead + |r| <= i < |s| ==> IsWhitespace(s[i])
    ensures !IsWhitespace(s[lead + |r| - 1])
  {
    assert s[lead] == r[0];
    assert s[lead + |r| - 1] == r[|r| - 1];
    forall i | 0 <= i < lead ensures IsWhitespace(s[i]) {
      assert s[..lead][i] == s[i];
    }
    forall i | lead + |r| <= i < |s| ensures IsWhitespace(s[i]) {
      assert s[lead + |r|..][i - lead - |r|] == s[i];
    }
  }

  /** The trimmed text is unique: `IsTrimOf` pins down exactly one result, so
      `Trim` is the trim of its input and no other string is. */
  lemma {:induction false} TrimIsUnique(s: string, r1: string, r2: string)
    requires IsTrimOf(s, r1) && IsTrimOf(s, r2)
    ensures r1 == r2
  {
    var a :| IsTrimAt(s, r1, a);
    var b :| IsTrimAt(s, r2, b);
    if r1 == [] {
      forall i | 0 <= i < |s| ensures IsWhitespace(s[i]) {
        WhitespaceAround(s, a, i);
      }
      if r2 != [] {
        PieceBounds(s, r2, b);
      }
    } else if r2 == [] {
      forall i | 0 <= i < |s| ensures IsWhitespace(s[i]) {
        WhitespaceAround(s, b, i);
      }
      PieceBounds(s, r1, a);
    } else {
      PieceBounds(s, r1, a);
      PieceBounds(s, r2, b);
      assert a == b;
      assert |r1| == |r2|;
    }
  }

  /** When the text before and from `lead` is whitespace, every index is whitespace. */
  lemma WhitespaceAround(s: string, lead: int, i: int)
    requires 0 <= lead <= |s|
    requires AllWhitespace(s[..lead]) && AllWhitespace(s[lead..])
    requires 0 <= i < |s|
    ensures IsWhitespace(s[i])
  {
    if i < lead { assert s[..lead][i] == s[i]; }
    else { assert s[lead..][i - lead] == s[i]; }
  }

  /** Trimming twice changes nothing more than trimming once. */
  lemma {:induction false} TrimIdempotent(s: string)
    ensures Trim(Trim(s)) == Trim(s)
  {
    var r := Trim(s);
    assert IsTrimAt(r, r, 0) by {
      assert r[..0] == [] && r[|r|..] == [];
      assert r[0..|r|] == r;
    }
    TrimIsUnique(r, Trim(r), r);
  }
}

=== FILE: openmeteo.dfy ===
/** The two Open-Meteo endpoints as the widget sees them: the requests it
    issues, the replies `fetch` can produce, and the parts of the JSON bodies
    it reads. Temperatures and coordinates are `real` and are only passed on. */
module OpenMeteo {
  import opened Js

  /** The `name` parameter of the geocoding URL: the city text interpolated
      as it is, or passed through `encodeURIComponent` first. The encoding
      itself is not computed; the tag records which of the two URLs is sent. */
  datatype NameParam = Raw(text: string) | UriEncoded(text: string)

  /** One outbound GET. `Geocode` carries the `name` parameter;
      `Forecast` carries the `latitude` and `longitude` values interpolated
      into the forecast URL (`undefined` or `null` when the place lacked them). */
  datatype Request =
    | Geocode(name: NameParam)
    | Forecast(latitude: Field<real>, longitude: Field<real>)

  /** What awaiting `fetch(url)` and then `response.json()` yields: the promise
      rejects (network failure), the response has `ok === false`, or the
      response is ok and carries a parsed body. */
  datatype Reply<+B> = NetworkFailure | NotOk | Ok(body: B)

  /** One element of the geocoding `results` array. */
  datatype Place = Place(latitude: Field<real>, longitude: Field<real>, name: Field<string>, country: Field<string>)

  /** The geocoding body: `{ results: [...] }`, with `results` possibly missing or `null`. */
  datatype GeoPayload = GeoPayload(results: Field<seq<Place>>)

  /** The `current_weather` object of a forecast body. */
  datatype CurrentWeather = CurrentWeather(temperature: Field<real>, weathercode: Field<int>, windspeed: Field<real>)

  /** The forecast body: `{ current_weather: {...} }`, with `current_weather` possibly missing or `null`. */
  datatype ForecastPayload = ForecastPayload(currentWeather: Field<CurrentWeather>)

  /** The geocoding body names at least one place: `results` is present and non-empty. */
  predicate Found(g: GeoPayload)
  {
    g.results.Present? && |g.results.value| > 0
  }

  /** `results[0]`, the only place either variant looks at. */
  function FirstPlace(g: GeoPayload): Place
    requires Found(g)
  {
    g.results.value[0]
  }

  /** The forecast request built from a place's coordinates. */
  function ForecastFor(p: Place): Request
  {
    Forecast(p.latitude, p.longitude)
  }
}

=== FILE: variants.dfy ===
/** How the two `buscarClima` variants relate. The page handler behaves like
    the exported function applied to the trimmed text, except that it
    URL-encodes the city, folds every transport failure into one message and
    accepts a forecast body without `current_weather`. */
module Variants {
  import opened Js
  import opened OpenMeteo
  import JsString
  import ApiCore
  import Widget

  /** The exported function failed in transport: `fetch` rejected or a
      response was not ok. */
  predicate TransportFailure(outcome: Completion<CurrentWeather, ApiCore.CoreError>)
  {
    outcome.Threw? && (outcome.error.FetchRejected? || outcome.error.LocationLookupFailed? || outcome.error.WeatherLookupFailed?)
  }

  /** The two runs issue the same requests in the same order, except that the
      exported function's geocoding name `t` is raw and the handler's encoded. */
  predicate SameRequests(c: ApiCore.Run, w: Widget.Effect, t: string)
  {
    && |w.requests| == |c.trace|
    && (|c.trace| >= 1 ==>
          && c.trace[0] == Geocode(Raw(t))
          && w.requests[0] == Geocode(UriEncoded(t))
          && w.requests[1..] == c.trace[1..])
  }

  /** Each outcome of the exported function maps to one page outcome of the
      handler: validation and not-found one to one, the three transport
      failures to the generic message, success and a missing
      `current_weather` to the handler's success, with the same card. */
  predicate SameOutcome(c: ApiCore.Run, w: Widget.Effect, geo: Reply<GeoPayload>, hour: int)
  {
    && (c.outcome == Threw(ApiCore.EmptyCity) <==> w.page.errorText == Widget.ValidationMessage)
    && (c.outcome == Threw(ApiCore.CityNotFound) <==> w.page.errorText == Widget.NotFoundMessage)
    && (TransportFailure(c.outcome) <==> w.page.errorText == Widget.GenericMessage)
    && (c.outcome.Returned? || c.outcome == Threw(ApiCore.InvalidWeatherData) <==> w.page.errorText == "")
    && (c.outcome.Returned? ==>
          && geo.Ok? && Found(geo.body)
          && w.page.card == Widget.Filled(Widget.Render(FirstPlace(geo.body), ForecastPayload(Present(c.outcome.value)), hour)))
  }

  /** The handler on raw text `s` issues the requests the exported function
      issues for `s.trim()`, in the same order, except that its geocoding
      request carries the text URL-encoded where the exported function puts
      it into the URL as it is; and each outcome of the exported function
      maps to one page outcome of the handler. */
  lemma HandlerIsCoreOnTrimmedText(page: Widget.Page, s: string, geo: Reply<GeoPayload>,
                                   forecast: Reply<ForecastPayload>, hour: int)
    ensures
      var t := JsString.Trim(s);
      var c := ApiCore.BuscarClima(Present(t), geo, forecast);
      var w := Widget.BuscarClima(page, Widget.Typed(s), geo, forecast, hour);
      SameRequests(c, w, t) && SameOutcome(c, w, geo, hour)
  {
    RequestsCorrespond(page, s, geo, forecast, hour);
    OutcomesCorrespond(page, s, geo, forecast, hour);
  }

  /** The request half of `HandlerIsCoreOnTrimmedText`. */
  lemma {:induction false} RequestsCorrespond(page: Widget.Page, s: string, geo: Reply<GeoPayload>,
                                              forecast: Reply<ForecastPayload>, hour: int)
    ensures
      var t := JsString.Trim(s);
      SameRequests(ApiCore.BuscarClima(Present(t), geo, forecast),
                   Widget.BuscarClima(page, Widget.Typed(s), geo, forecast, hour), t)
  {
    var t := JsString.Trim(s);
    if t != "" {
      LookupMatchesCore(page.(errorText := ""), t, geo, forecast, hour);
    }
  }

  /** The outcome half of `HandlerIsCoreOnTrimmedText`. */
  lemma {:induction false} OutcomesCorrespond(page: Widget.Page, s: string, geo: Reply<GeoPayload>,
                                              forecast: Reply<ForecastPayload>, hour: int)
    ensures
      var t := JsString.Trim(s);
      SameOutcome(ApiCore.BuscarClima(Present(t), geo, forecast),
                  Widget.BuscarClima(page, Widget.Typed(s), geo, forecast, hour), geo, hour)
  {
    var t := JsString.Trim(s);
    Widget.TextsDiffer();
    if t != "" {
      LookupMatchesCore(page.(errorText := ""), t, geo, forecast, hour);
    }
  }

  /** Past validation, the handler's `try` block and the exported function
      agree step by step on the same non-empty text. */
  lemma {:induction false} LookupMatchesCore(cleared: Widget.Page, t: string, geo: Reply<GeoPayload>,
                                             forecast: Reply<ForecastPayload>, hour: int)
    requires t != ""
    ensures
      var c := ApiCore.BuscarClima(Present(t), geo, forecast);
      var w := Widget.Lookup(cleared, t, geo, forecast, hour);
      && |c.trace| >= 1
      && c.outcome != Threw(ApiCore.EmptyCity)
      && SameRequests(c, w, t)
      && SameOutcome(c, w, geo, hour)
  {
    var c := ApiCore.BuscarClima(Present(t), geo, forecast);
    var w := Widget.Lookup(cleared, t, geo, forecast, hour);
    Widget.TextsDiffer();
    if |c.trace| == 2 {
      assert w.requests[1..] == [w.requests[1]] && c.trace[1..] == [c.trace[1]];
    } else {
      assert w.requests[1..] == [] == c.trace[1..];
    }
    if c.outcome.Returned? {
      assert forecast.body == ForecastPayload(Present(c.outcome.value));
    }
  }

  /** Whitespace-only text separates the variants: the exported function does
      not trim, so it geocodes the blank text; the handler trims and stops. */
  lemma BlankTextSeparatesVariants(page: Widget.Page, s: string, geo: Reply<GeoPayload>,
                                   forecast: Reply<ForecastPayload>, hour: int)
    requires s != "" && JsString.AllWhitespace(s)
    ensures |ApiCore.BuscarClima(Present(s), geo, forecast).trace| >= 1
    ensures ApiCore.BuscarClima(Present(s), geo, forecast).trace[0] == Geocode(Raw(s))
    ensures Widget.BuscarClima(page, Widget.Typed(s), geo, forecast, hour).requests == []
    ensures Widget.BuscarClima(page, Widget.Typed(s), geo, forecast, hour).page.errorText == Widget.ValidationMessage
  {
  }
}

=== FILE: widget.dfy ===
/** `buscarClima()` of assets/js/api.js, the click handler of the page: it
    reads and trims the city field, performs the same two lookups through
    `fetchJson`, and writes the outcome into the page instead of returning it.
    The page is modelled as the few DOM properties the handler writes. */
module Widget {
  import opened Js
  import opened OpenMeteo
  import JsString
  import Conditions

  const ValidationMessage := "Por favor, digite o nome de uma cidade."
  const NotFoundMessage := "Cidade não encontrada."
  const GenericMessage := "Erro ao buscar dados. Verifique sua conexão."
  const LocationErrorMessage := "Erro ao buscar localização"
  const WeatherErrorMessage := "Erro ao buscar dados do clima"

  /** Page background by day and by night. */
  const DayColour := "#87CEFA"
  const NightColour := "#001F3F"

  /** What `fetchJson` can throw: `fetch`'s own rejection, or its `Error(errorMsg)`. */
  datatype Thrown = NetworkRejection | Error(message: string)

  /** `fetchJson(url, errorMsg)`: it throws exactly when the response is not
      ok (or `fetch` itself rejects) and otherwise yields the parsed body. */
  function FetchJson<B>(reply: Reply<B>, errorMessage: string): (r: Completion<B, Thrown>)
    ensures r.Returned? <==> reply.Ok?
    ensures r.Returned? ==> r.value == reply.body
    ensures reply.NotOk? ==> r == Threw(Error(errorMessage))
    ensures reply.NetworkFailure? ==> r == Threw(NetworkRejection)
  {
    match reply
    case NetworkFailure => Threw(NetworkRejection)
    case NotOk => Threw(Error(errorMessage))
    case Ok(body) => Returned(body)
  }

  /** `${temperature ?? "--"}°C`: a reading, or the `--°C` placeholder. */
  datatype TemperatureText = Placeholder | Degrees(celsius: real)

  /** The result card and the page background as the handler leaves them. */
  datatype Card = Card(
    temperature: TemperatureText,
    iconClass: string,
    location: string,
    description: string,
    background: string)

  /** The result card: blank until a lookup has filled it in. */
  datatype CardState = Blank | Filled(card: Card)

  /** The page state the handler reads and writes: the text of `#erro`, whether
      the result screen is showing, and the result card. The date line is not
      modelled. */
  datatype Page = Page(errorText: string, showsResult: bool, card: CardState)

  /** `cidadeInput?.value`: no `#cidade` element on the page (`undefined`),
      or the element's value, which the DOM always gives as a string. */
  datatype CityInput = NoField | Typed(text: string)

  /** The page after one click, with the requests the click issued. */
  datatype Effect = Effect(page: Page, requests: seq<Request>)

  /** `hora >= 6 && hora < 18 ? "#87CEFA" : "#001F3F"`. */
  function Background(hour: int): (colour: string)
    ensures colour == DayColour <==> 6 <= hour < 18
    ensures colour == NightColour <==> hour < 6 || 18 <= hour
  {
    if hour >= 6 && hour < 18 then DayColour else NightColour
  }

  /** The card the handler renders from `results[0]` and the forecast body.
      A missing or `null` `current_weather` is read as `{}`. */
  function Render(place: Place, climaData: ForecastPayload, hour: int): (c: Card)
    // The temperature is shown when current_weather carries one, else "--".
    ensures c.temperature.Placeholder?
      <==> !climaData.currentWeather.Present? || !climaData.currentWeather.value.temperature.Present?
    ensures c.temperature.Degrees? ==> c.temperature.celsius == climaData.currentWeather.value.temperature.value
    // A missing current_weather is not an error: it renders as the unknown condition.
    ensures !climaData.currentWeather.Present? ==> c.iconClass == "wi wi-na" && c.description == "Desconhecido"
    // Otherwise icon and text come from the condition table.
    ensures climaData.currentWeather.Present? ==>
      && c.iconClass == "wi " + Conditions.Describe(climaData.currentWeather.value.weathercode).icon
      && c.description == Conditions.Describe(climaData.currentWeather.value.weathercode).text
    ensures c.location == Interpolate(place.name) + ", " + Interpolate(place.country)
    ensures c.background == Background(hour)
  {
    var temperature := if climaData.currentWeather.Present? then climaData.currentWeather.value.temperature else Absent;
    var weathercode := if climaData.currentWeather.Present? then climaData.currentWeather.value.weathercode else Absent;
    var condition := Conditions.Describe(weathercode);
    Card(
      if temperature.Present? then Degrees(temperature.value) else Placeholder,
      "wi " + condition.icon,
      Interpolate(place.name) + ", " + Interpolate(place.country),
      condition.text,
      Background(hour))
  }

  /** The geocoding request is issued: the field exists and its trimmed text is not empty. */
  predicate Searches(input: CityInput)
  {
    input.Typed? && !JsString.AllWhitespace(input.text)
  }

  /** The forecast request is issued as well. */
  predicate ReachesForecast(input: CityInput, geo: Reply<GeoPayload>)
  {
    Searches(input) && geo.Ok? && Found(geo.body)
  }

  /** The click handler. `input` is the city field's value, `geo` and `forecast` are how the two
      fetches settle, `hour` is the local hour when the forecast arrives. */
  function BuscarClima(page: Page, input: CityInput, geo: Reply<GeoPayload>,
                       forecast: Reply<ForecastPayload>, hour: int): (r: Effect)
    // Requests: none unless the trimmed text is non-empty, then the trimmed
    // text, URL-encoded, then the forecast for results[0].
    ensures r.requests == [] <==> !Searches(input)
    ensures |r.requests| <= 2
    ensures |r.requests| >= 1 ==> r.requests[0] == Geocode(UriEncoded(JsString.Trim(input.text)))
    ensures |r.requests| == 2 <==> ReachesForecast(input, geo)
    ensures |r.requests| == 2 ==> r.requests[1] == ForecastFor(FirstPlace(geo.body))
    // The error line: cleared, then set at most once, to one of three texts.
    ensures r.page.errorText == ValidationMessage <==> !Searches(input)
    ensures r.page.errorText == NotFoundMessage <==> Searches(input) && geo.Ok? && !Found(geo.body)
    ensures r.page.errorText == GenericMessage
      <==> (Searches(input) && !geo.Ok?) || (ReachesForecast(input, geo) && !forecast.Ok?)
    ensures r.page.errorText == "" <==> ReachesForecast(input, geo) && forecast.Ok?
    // Failures touch nothing but the error line; success shows the result screen.
    ensures r.page.errorText != "" ==> r.page == page.(errorText := r.page.errorText)
    ensures r.page.errorText == "" ==> r.page.showsResult && r.page.card.Filled?
  {
    TextsDiffer();
    var cleared := page.(errorText := "");
    match input
    case NoField => Effect(cleared.(errorText := ValidationMessage), [])
    case Typed(raw) =>
      var cidade := JsString.Trim(raw);
      if cidade == "" then Effect(cleared.(errorText := ValidationMessage), [])
      else Lookup(cleared, cidade, geo, forecast, hour)
  }

  /** The handler's `try` block, entered with the error line already cleared
      and a non-empty trimmed city: geocode, then forecast for `results[0]`,
      then render; a thrown failure is caught into the generic message. */
  function Lookup(cleared: Page, cidade: string, geo: Reply<GeoPayload>,
                  forecast: Reply<ForecastPayload>, hour: int): (r: Effect)
    requires cidade != ""
    ensures 1 <= |r.requests| <= 2 && r.requests[0] == Geocode(UriEncoded(cidade))
    ensures |r.requests| == 2 <==> geo.Ok? && Found(geo.body)
    ensures |r.requests| == 2 ==> r.requests[1] == ForecastFor(FirstPlace(geo.body))
    ensures r.page.errorText == NotFoundMessage <==> geo.Ok? && !Found(geo.body)
    ensures r.page.errorText == GenericMessage <==> !geo.Ok? || (geo.Ok? && Found(geo.body) && !forecast.Ok?)
    ensures r.page.errorText == "" <==> geo.Ok? && Found(geo.body) && forecast.Ok?
    ensures r.page.errorText != "" ==> r.page == cleared.(errorText := r.page.errorText)
    ensures r.page.errorText == "" ==> r.page == Page("", true, Filled(Render(FirstPlace(geo.body), forecast.body, hour)))
  {
    TextsDiffer();
    var geocode := [Geocode(UriEncoded(cidade))];
    match FetchJson(geo, LocationErrorMessage)
    case Threw(_) => Effect(cleared.(errorText := GenericMessage), geocode)
    case Returned(geoData) =>
      if !Found(geoData) then Effect(cleared.(errorText := NotFoundMessage), geocode)
      else
        var place := FirstPlace(geoData);
        var both := geocode + [ForecastFor(place)];
        match FetchJson(forecast, WeatherErrorMessage)
        case Threw(_) => Effect(cleared.(errorText := GenericMessage), both)
        case Returned(climaData) =>
          Effect(Page("", true, Filled(Render(place, climaData, hour))), both)
  }

  /** The handler's three error texts differ from each other and from "". */
  lemma TextsDiffer()
    ensures ValidationMessage != NotFoundMessage && ValidationMessage != GenericMessage
    ensures NotFoundMessage != GenericMessage
    ensures ValidationMessage != "" && NotFoundMessage != "" && GenericMessage != ""
  {
    assert ValidationMessage[0] == 'P' && NotFoundMessage[0] == 'C' && GenericMessage[0] == 'E';
  }

  /** On success the card is rendered from `results[0]` and the forecast body,
      and the handler's own error line is left empty. */
  lemma SuccessRendersFirstPlace(page: Page, input: CityInput, geo: Reply<GeoPayload>,
                                 forecast: Reply<ForecastPayload>, hour: int)
    requires ReachesForecast(input, geo) && forecast.Ok?
    ensures BuscarClima(page, input, geo, forecast, hour).page
         == Page("", true, Filled(Render(FirstPlace(geo.body), forecast.body, hour)))
  {
  }

  /** An ok forecast body whose `current_weather` is missing or `null` is not
      rejected, although the handler's doc comment lists it among the
      failures: the result screen is shown with the `--°C` placeholder and the
      unknown condition. */
  lemma MissingCurrentWeatherIsNotAnError(page: Page, input: CityInput, geo: Reply<GeoPayload>,
                                          climaData: ForecastPayload, hour: int)
    requires ReachesForecast(input, geo) && !climaData.currentWeather.Present?
    ensures
      var r := BuscarClima(page, input, geo, Ok(climaData), hour);
      && r.page.errorText == ""
      && r.page.showsResult
      && r.page.card.Filled?
      && r.page.card.card.temperature == Placeholder
      && r.page.card.card.iconClass == "wi wi-na"
      && r.page.card.card.description == "Desconhecido"
  {
    SuccessRendersFirstPlace(page, input, geo, Ok(climaData), hour);
  }
}
